=== FILE: README.md ===
# Wallpaper generator, modelled in Dafny

The wallpaper generator draws a layered-wave wallpaper. It samples a set of
random parameters for a canvas width: a segment count, a wavelength, a number
of layers, a starting hue and lightness, each with a per-layer increment, a
saturation shared by all layers, an amplitude, and a phase offset with its
per-layer increment. It fills the canvas with the starting colour.
It then draws one polygon per layer, whose upper edge is a sampled sine wave
and whose colour is converted from HSL to RGB. Finally it saves the image
under the next free numbered name in an output directory.

This project models the pure logic of that script in six modules:

- `Wrappers`: the `Option` type.
- `Numeric`: Python's float `%` (floor-based), `math.floor` and the truncating
  `int()` of a float, over mathematical reals.
- `Sampler`: `generateValues`, as a function of the width and an explicit
  sequence of draws in [0, 1), one per `random.random()` call, consumed in
  Python's evaluation order. A conditional expression draws its test first
  and then only the chosen branch's draws, so a sample uses 12 or 13 draws.
- `Color`: `hsl_to_rgb` and the `int(x * 255)` channel conversion. It also
  holds an independent cyclic reference definition of HSL, against which the
  conversion is compared.
- `Layers`: the drawing loop of `draw`, as the list of shapes handed to the
  drawing library. That is the background rectangle, then per layer its
  colour and its vertex list, with `math.sin` as a parameter.
- `Filename`: `generate_filename`, with the directory listing as a parameter.
  It includes a model of Python's `int()` on strings: ASCII white space
  (space, tab to carriage return) around the number, an optional sign, and digits with single underscores
  between them.

The drawing follows the code: its fills come from the conversion as written,
`Color.HslToRgb`. The corrected conversion `Color.HslToRgbFixed` (see
"Findings") gives the fills `Layers.BackgroundFixed` and
`Layers.LayerColorFixed`, and `Layers.CorrectedFills` relates the two sets of
fills. Neither conversion brings the hue into [0, 360), and layer hues drift
below 0 or past 360 as layers are added. A negative hue takes the first branch
and a hue of 240 or more the last (in the corrected conversion, a hue of 300
or more takes the sixth). The model follows the code here, and
`Color.HueNotCyclic` shows the difference from the cyclic HSL model
(`Color.Reference`) at 370 and 10 degrees.

## Model

| member | source | states |
|---|---|---|
| Numeric.PyMod | wallpaper-generator.py:43 | Python's `%` with a positive divisor lands in [0, d) |
| Numeric.PyModIsFloorMod | wallpaper-generator.py:43 | the stepping definition equals Python's a - d*floor(a/d) for every real a, negative ones included |
| Numeric.PyModWhen | wallpaper-generator.py:43 | when a lies in [j*d, (j+1)*d), `a % d` is a - j*d |
| Numeric.PyModShift | wallpaper-generator.py:43 | `%` is periodic in its left operand with the divisor as period |
| Numeric.Trunc | wallpaper-generator.py:96 | `int()` of a float truncates toward zero: its magnitude is within 1 below the argument's, with the same sign |
| Numeric.FloorBelow | wallpaper-generator.py:14 | `math.floor` of a value in [0, n) is a whole number in 0..n-1 |
| Sampler.Segments | wallpaper-generator.py:14 | a coin below 0.5 gives a segment count in 1..9, otherwise exactly 200 |
| Sampler.Wavelength | wallpaper-generator.py:16 | for a positive width the wavelength is positive and lies in (width/20, width/5] |
| Sampler.LayerCount | wallpaper-generator.py:22 | the layer count lies in 3..12 |
| Sampler.Amplitude | wallpaper-generator.py:25 | for a positive wavelength the amplitude lies in [0.1*wl, wl) |
| Sampler.Offset | wallpaper-generator.py:26 | for a positive width the phase offset lies in [0, width) |
| Sampler.OffsetIncrement | wallpaper-generator.py:27 | for a positive width the offset increment lies in [width/20, 3*width/20) |
| Sampler.LightIncrement | wallpaper-generator.py:30 | the lightness increment has magnitude in [2, 6), and it is positive exactly when the coin is below 0.5 |
| Sampler.GenerateValues | wallpaper-generator.py:12-34 | every field lies in its range; segments is 200 exactly when the first draw is at least 0.5; 12 draws are used then and 13 otherwise |
| Sampler.WavelengthInverse | wallpaper-generator.py:16 | every wavelength in (width/20, width/5] comes from some draw in [0, 1) |
| Sampler.AmplitudeInverse | wallpaper-generator.py:25 | every amplitude in [0.1*wl, wl) comes from some draw in [0, 1) |
| Sampler.OffsetInverse | wallpaper-generator.py:26 | every offset in [0, width) comes from some draw in [0, 1) |
| Sampler.OffsetIncrementInverse | wallpaper-generator.py:27 | every increment in [width/20, 3*width/20) comes from some draw in [0, 1) |
| Sampler.DrawsForRoundTrip | wallpaper-generator.py:12-34 | the ranges are exact: every in-range parameter set is what `generateValues` returns for some valid draws |
| Color.HueWeight | wallpaper-generator.py:43 | the factor 1 - abs((h*6) % 2 - 1) lies in [0, 1] for every hue |
| Color.Sectors | wallpaper-generator.py:47-51 | the five branches hand out the three components as a permutation; a negative h/360 takes the first branch and h/360 of 2/3 or more the last |
| Color.Assemble | wallpaper-generator.py:42-51 | the channels are c + m, x + m and m in some order; zero chroma gives grey; with components in range, the minimum channel is m, the maximum is c + m, and all lie in [0, 1] |
| Color.HslToRgb | wallpaper-generator.py:36-51 | for percentages in [0, 100], every channel lies in [0, 1], with m = l - c/2 as the minimum and c + m as the maximum; s = 0 gives grey l/100; negative hues give red largest and blue smallest; hues of 240 or more give blue largest and green smallest |
| Color.SixSectors | wallpaper-generator.py:47-51 | the six-way assignment agrees with the five-way one below h/360 = 5/6 and gives (largest, smallest, intermediate) from there on |
| Color.AssembleFixed | wallpaper-generator.py:42-51 | the corrected assembly keeps the permutation, grey and range facts, and differs from the as-written one only from h/360 = 5/6, by exchanging red and blue |
| Color.HslToRgbFixed | wallpaper-generator.py:36-51 | the corrected conversion equals the as-written one below hue 300, exchanges its red and blue from 300, and keeps its range, extremes and grey properties |
| Color.ComponentBounds | wallpaper-generator.py:42-44 | for percentages in [0, 100], the chroma is non-negative and m and c + m lie in [0, 1]; s = 0 gives zero chroma and m = l/100 |
| Color.ArrangedBounds | wallpaper-generator.py:45-51 | both branch assignments of in-range components give channels in [0, 1], with m smallest and c + m largest |
| Color.ChromaIsTwiceA | wallpaper-generator.py:42-44 | the chroma is twice the reference's s*min(l, 1-l), and m is l minus that |
| Color.WeightAt | wallpaper-generator.py:43 | within the j-th sixth of the wheel, the hue weight is the distance of h*6/360 from the sixth's even end (the nearest even integer), a linear function of h |
| Color.FixedMatchesReference | wallpaper-generator.py:36-51 | on [0, 360), for every saturation and lightness, the corrected conversion equals the independent cyclic HSL reference |
| Color.AsWrittenAgainstReference | wallpaper-generator.py:36-51 | on [0, 300) the as-written conversion equals the reference; on [300, 360) it returns the reference colour with red and blue exchanged |
| Color.ReferencePeriodic | wallpaper-generator.py:39 | the reference definition is cyclic in the hue with period 360 |
| Color.MissingSixthSector | wallpaper-generator.py:51 | at hue 330, full saturation and half lightness, the code gives (0.5, 0, 1) where the reference and the corrected conversion give (1, 0, 0.5) |
| Color.HueNotCyclic | wallpaper-generator.py:39-51 | neither conversion wraps the hue: 370 degrees converts differently from 10 degrees, although the reference treats them alike |
| Color.ChannelByte | wallpaper-generator.py:96 | `int(x * 255)` of a channel in [0, 1] is in 0..255, is the largest whole number not above x*255, and is 255 at full intensity |
| Color.ToBytes | wallpaper-generator.py:96 | a colour with channels in [0, 1] becomes three bytes in 0..255 |
| Layers.LayerCoords | wallpaper-generator.py:108-114 | the layer's vertex list has segments + 5 points; the first and last are (0, startY); the two before last are (width, height) and (0, height); point i + 1 is the i-th wave sample |
| Layers.BuildCoords | wallpaper-generator.py:107-114 | the loop that appends one vertex at a time builds exactly that list |
| Layers.Render | wallpaper-generator.py:95-115 | the shapes drawn are the full-canvas background rectangle in the starting colour, then, for each layer in order, its polygon in its colour, both converted as the code converts them |
| Layers.CorrectedFills | wallpaper-generator.py:96-104 | the fills with the corrected conversion equal the drawn ones below hue 300 and are the drawn ones with red and blue exchanged from 300 on |
| Layers.CurveSpan | wallpaper-generator.py:110 | wave samples start at x = 0, end at x = width, advance in equal steps of width/segments, and are non-decreasing for a non-negative width |
| Layers.OffsetYBounds | wallpaper-generator.py:106 | for 0 <= l < layers, the centre line lies strictly inside (0, height), within the l-th of the equal horizontal bands |
| Layers.DoubledDisplacement | wallpaper-generator.py:107-111 | each sample's height is the centre line plus two sine terms; at the left edge the displacement is doubled |
| Layers.WaveBand | wallpaper-generator.py:106-111 | with a sine bounded by 1, the start vertex and every wave sample lie within 2*abs(ampl) of the centre line |
| Layers.BackgroundInRange | wallpaper-generator.py:96-97 | for sampled parameters, the background's three channels are bytes in 0..255 |
| Layers.LayerColorInRange | wallpaper-generator.py:101-104 | a layer whose lightness stays within [0, 100] gets channels in 0..255 |
| Layers.LightnessLeavesRange | wallpaper-generator.py:103-104 | sampled parameters can push a layer's lightness to 119, whose blue channel is above 255 |
| Filename.NatToString | wallpaper-generator.py:72 | the decimal form of a number is a non-empty digit string, without a leading zero unless the number is 0 |
| Filename.DigitsOfNatToString | wallpaper-generator.py:72 | the decimal form spells back its number |
| Filename.ParseNatToString | wallpaper-generator.py:66 | `int(str(n)) == n` for every natural n |
| Filename.ParseDigits | wallpaper-generator.py:66 | a plain digit string, leading zeros included, parses to its value |
| Filename.DigitsAreNumeral | wallpaper-generator.py:66 | a plain digit string is a numeral with the same value |
| Filename.ParseRejects | wallpaper-generator.py:66-69 | the empty string, blank space and a lone sign raise ValueError |
| Filename.ParseAcceptsSpace | wallpaper-generator.py:66 | white space around the digits is stripped |
| Filename.ParseRejectsSeparator | wallpaper-generator.py:66-69 | the ASCII separator 0x1C in front of a digit is not stripped, so the string raises ValueError |
| Filename.ParseAcceptsSign | wallpaper-generator.py:66 | a leading minus sign negates |
| Filename.ParseUnderscore | wallpaper-generator.py:66 | single underscores between digits are accepted and ignored |
| Filename.ParseBadUnderscores | wallpaper-generator.py:66-69 | a doubled, leading or trailing underscore raises ValueError |
| Filename.Middle | wallpaper-generator.py:66 | the slice `file[start:-4]` is the characters from start up to the last four, or empty when that range is empty |
| Filename.Numbers | wallpaper-generator.py:62-66 | the numbers the entries carry, entry by entry in listing order |
| Filename.MaxOf | wallpaper-generator.py:61-67 | the running maximum from 0 is non-negative, at least every number present, and either 0 or one of them |
| Filename.HighestNumIsMax | wallpaper-generator.py:61-69 | the highest number is 0 or carried by some entry, and no entry carries a larger one |
| Filename.NextFileNumber | wallpaper-generator.py:61-72 | the loop over the listing computes one more than the highest number in use |
| Filename.GenerateFilename | wallpaper-generator.py:54-72 | the path is inside the base directory, and its name carries the number one past the highest in use |
| Filename.NextNameNumber | wallpaper-generator.py:72 | the next name parses back to the next number |
| Filename.SavedNameNumber | wallpaper-generator.py:66-72 | any name the generator writes carries its own number |
| Filename.NextExceedsAll | wallpaper-generator.py:61-72 | the next number is at least 1 and strictly greater than every number parsed from the listing |
| Filename.NoOverwrite | wallpaper-generator.py:72 | the next name is not already in the listing |
| Filename.NumbersAppend | wallpaper-generator.py:62-66 | the numbers of a joined listing are the two parts' numbers joined |
| Filename.MaxOfAppend | wallpaper-generator.py:61-67 | the running maximum of joined numbers is the larger of the two parts' maxima |
| Filename.HighestNumAppend | wallpaper-generator.py:61-69 | the highest number does not depend on how the listing is split or in which order its parts come |
| Filename.HighestNumSubset | wallpaper-generator.py:61-69 | when every entry of one listing is in another, the first's highest number is at most the second's |
| Filename.HighestNumPermutation | wallpaper-generator.py:61-69 | two listings with the same entries in any order have the same highest number and the same next name |
| Filename.HighestNumSnoc | wallpaper-generator.py:62-67 | one more entry raises the highest number to its own number, if it carries a larger one |
| Filename.IgnoresUnnumbered | wallpaper-generator.py:63-69 | entries without the base name, or whose middle part does not parse, leave the next name unchanged |
| Filename.NextAfterSave | wallpaper-generator.py:61-72 | once the wallpaper is saved under the next name, the following call picks the number after it |
| Filename.SliceDropsAnyFour | wallpaper-generator.py:66 | the last four characters are dropped whatever they are: "generated-12345" carries 1, "generated-7.jpg" carries 7, and names no longer than the base name plus four characters carry none |

## Left out

- Drawing and display: `Image.new`, `ImageDraw.Draw`, `image.show` and `image.save` are foreign code. The rectangle and polygon calls are modelled as the list of `Layers.Command` values they receive.
- How the image library treats a fill channel above 255 (see `Layers.LightnessLeavesRange`) is outside the model.
- `os.listdir` is I/O: the listing is a parameter. `print` of the parameter dictionary is left out.
- `random.random()` is replaced by explicit draws. Only the ranges are modelled, not the probability distributions.
- `math.sin` is a parameter. The band property assumes it is bounded by 1.
- IEEE floating point: every computation is over mathematical reals, so rounding in divisions, in `%` and in `int(x * 255)` is not modelled.
- Filename.ParseInt: Python's `int()` also accepts non-ASCII Unicode digits and white space; only ASCII is modelled, which is all that decimal file numbers produce.
- The `__main__` entry point and the fixed 3840 by 2160 canvas of `draw` are left out: width and height are parameters.
- The dictionary keys are modelled as the fields of `Sampler.Params`.

## Findings

| source | as written | input that shows it | evidently intended | confidence | as-written member | corrected member |
|---|---|---|---|---|---|---|
| wallpaper-generator.py:47-51 | five branches; every h/360 of 2/3 or more returns (x, m, c) | h = 330, s = 100, l = 50 gives (0.5, 0, 1), a blue-leaning violet (`Color.MissingSixthSector`) | a sixth branch for h/360 of 5/6 or more returning (c, m, x), giving the magenta (1, 0, 0.5) of the HSL model (`Color.FixedMatchesReference`) | high; not executed | Color.HslToRgb | Color.HslToRgbFixed |

=== FILE: color.dfy ===
/** `hsl_to_rgb`: the HSL to RGB conversion used for the background and every
    layer, over mathematical reals. Hue is in degrees, saturation and lightness
    in percent; each channel comes back as a fraction of full intensity. */
module Color {
  import opened Numeric

  /** A colour with real channels, full intensity being 1. */
  datatype Rgb = Rgb(r: real, g: real, b: real)

  /** The chroma `c` of the conversion, for percentages s and l. */
  function Chroma(s: real, l: real): real
  {
    (1.0 - Abs(2.0 * (l / 100.0) - 1.0)) * (s / 100.0)
  }

  /** The smallest component m = l - c/2. */
  function Low(s: real, l: real): real
  {
    l / 100.0 - Chroma(s, l) / 2.0
  }

  /** The factor `1 - |(h*6) % 2 - 1|` that scales the chroma into the
      intermediate component `x`; h is in degrees and `%` is Python's. */
  function HueWeight(h: real): (w: real)
    ensures 0.0 <= w <= 1.0
  {
    1.0 - Abs(PyMod((h / 360.0) * 6.0, 2.0) - 1.0)
  }

  /** The channels of rgb are the three components in some order. */
  predicate IsArrangement(rgb: Rgb, hi: real, mid: real, lo: real)
  {
    || rgb == Rgb(hi, mid, lo) || rgb == Rgb(hi, lo, mid)
    || rgb == Rgb(mid, hi, lo) || rgb == Rgb(mid, lo, hi)
    || rgb == Rgb(lo, hi, mid) || rgb == Rgb(lo, mid, hi)
  }

  /** The five-way channel assignment of `hsl_to_rgb` on the fraction hf =
      h/360: the largest component `hi` (c + m), the intermediate one `mid`
      (x + m) and the smallest `lo` (m) are handed out by comparing hf with
      1/6, 1/3, 1/2 and 2/3 alone. */
  function Sectors(hf: real, hi: real, mid: real, lo: real): (rgb: Rgb)
    ensures IsArrangement(rgb, hi, mid, lo)
    ensures hf < 0.0 ==> rgb == Rgb(hi, mid, lo)
    ensures hf >= 2.0 / 3.0 ==> rgb == Rgb(mid, lo, hi)
  {
    if hf < 1.0 / 6.0 then Rgb(hi, mid, lo)
    else if hf < 1.0 / 3.0 then Rgb(mid, hi, lo)
    else if hf < 1.0 / 2.0 then Rgb(lo, hi, mid)
    else if hf < 2.0 / 3.0 then Rgb(lo, mid, hi)
    else Rgb(mid, lo, hi)
  }

  /** The last steps of `hsl_to_rgb`: from the fraction hf = h/360, the
      chroma c, the hue weight w and m, form c + m and x + m = c*w + m and
      assign the three components to channels. */
  function Assemble(hf: real, c: real, w: real, m: real): (rgb: Rgb)
    ensures IsArrangement(rgb, c + m, c * w + m, m)
    ensures c == 0.0 ==> rgb == Rgb(m, m, m)
    ensures hf < 0.0 ==> rgb.r == c + m && rgb.b == m
    ensures hf >= 2.0 / 3.0 ==> rgb.b == c + m && rgb.g == m
    ensures (0.0 <= c && 0.0 <= w <= 1.0 && 0.0 <= m && c + m <= 1.0) ==>
      Min3(rgb.r, rgb.g, rgb.b) == m && Max3(rgb.r, rgb.g, rgb.b) == m + c && InUnit(rgb)
  {
    ArrangedBounds(hf, c, w, m);
    Sectors(hf, c + m, c * w + m, m)
  }

  /** `hsl_to_rgb(h, s, l)` as written. The hue is never brought into
      [0, 360): a negative hue takes the first sector (red largest, blue
      smallest) and any hue of 240 or more the last (blue largest, green
      smallest). For valid percentages the smallest channel is m = l - c/2,
      the largest is c + m, and every channel lies in [0, 1]. */
  function HslToRgb(h: real, s: real, l: real): (rgb: Rgb)
    ensures IsArrangement(rgb, Chroma(s, l) + Low(s, l), Chroma(s, l) * HueWeight(h) + Low(s, l), Low(s, l))
    ensures s == 0.0 ==> rgb.r == rgb.g == rgb.b == l / 100.0
    ensures h < 0.0 ==> rgb.r == Chroma(s, l) + Low(s, l) && rgb.b == Low(s, l)
    ensures h >= 240.0 ==> rgb.b == Chroma(s, l) + Low(s, l) && rgb.g == Low(s, l)
    ensures 0.0 <= s <= 100.0 && 0.0 <= l <= 100.0 ==>
      && Min3(rgb.r, rgb.g, rgb.b) == Low(s, l)
      && Max3(rgb.r, rgb.g, rgb.b) == Low(s, l) + Chroma(s, l)
      && InUnit(rgb)
  {
    ComponentBounds(s, l);
    Assemble(h / 360.0, Chroma(s, l), HueWeight(h), Low(s, l))
  }

  /** The six-way assignment of the HSL model: the hue range [300, 360) gets
      its own sector, with red largest and blue intermediate. */
  function SixSectors(hf: real, hi: real, mid: real, lo: real): (rgb: Rgb)
    ensures IsArrangement(rgb, hi, mid, lo)
    ensures hf < 5.0 / 6.0 ==> rgb == Sectors(hf, hi, mid, lo)
    ensures hf >= 5.0 / 6.0 ==> rgb == Rgb(hi, lo, mid)
  {
    if hf < 1.0 / 6.0 then Rgb(hi, mid, lo)
    else if hf < 1.0 / 3.0 then Rgb(mid, hi, lo)
    else if hf < 1.0 / 2.0 then Rgb(lo, hi, mid)
    else if hf < 2.0 / 3.0 then Rgb(lo, mid, hi)
    else if hf < 5.0 / 6.0 then Rgb(mid, lo, hi)
    else Rgb(hi, lo, mid)
  }

  /** `Assemble` with the sixth sector restored. */
  function AssembleFixed(hf: real, c: real, w: real, m: real): (rgb: Rgb)
    ensures IsArrangement(rgb, c + m, c * w + m, m)
    ensures c == 0.0 ==> rgb == Rgb(m, m, m)
    ensures hf < 5.0 / 6.0 ==> rgb == Assemble(hf, c, w, m)
    ensures hf >= 5.0 / 6.0 ==> rgb == Rgb(Assemble(hf, c, w, m).b, Assemble(hf, c, w, m).g, Assemble(hf, c, w, m).r)
    ensures (0.0 <= c && 0.0 <= w <= 1.0 && 0.0 <= m && c + m <= 1.0) ==>
      Min3(rgb.r, rgb.g, rgb.b) == m && Max3(rgb.r, rgb.g, rgb.b) == m + c && InUnit(rgb)
  {
    ArrangedBounds(hf, c, w, m);
    SixSectors(hf, c + m, c * w + m, m)
  }

  /** The conversion with the missing sixth sector restored; used for the
      corrected fills `Layers.BackgroundFixed` and `Layers.LayerColorFixed`,
      while the drawing itself uses `HslToRgb`. Like the original it does not
      wrap the hue, and it differs from it only for hues of 300 or more, where
      red and blue trade places. */
  function HslToRgbFixed(h: real, s: real, l: real): (rgb: Rgb)
    ensures IsArrangement(rgb, Chroma(s, l) + Low(s, l), Chroma(s, l) * HueWeight(h) + Low(s, l), Low(s, l))
    ensures s == 0.0 ==> rgb.r == rgb.g == rgb.b == l / 100.0
    ensures h < 300.0 ==> rgb == HslToRgb(h, s, l)
    ensures h >= 300.0 ==> rgb == Rgb(HslToRgb(h, s, l).b, HslToRgb(h, s, l).g, HslToRgb(h, s, l).r)
    ensures 0.0 <= s <= 100.0 && 0.0 <= l <= 100.0 ==>
      && Min3(rgb.r, rgb.g, rgb.b) == Low(s, l)
      && Max3(rgb.r, rgb.g, rgb.b) == Low(s, l) + Chroma(s, l)
      && InUnit(rgb)
  {
    ComponentBounds(s, l);
    AssembleFixed(h / 360.0, Chroma(s, l), HueWeight(h), Low(s, l))
  }

  /** A colour as handed to the drawing library: three integer channels. */
  datatype Rgb8 = Rgb8(r: int, g: int, b: int)

  /** `int(x * 255)`: scale a channel to full intensity 255 and truncate
      toward zero. A channel in [0, 1] lands in 0..255, and the byte is the
      largest integer not above x * 255. */
  function ChannelByte(x: real): (b: int)
    ensures 0.0 <= x <= 1.0 ==> 0 <= b <= 255
    ensures x >= 0.0 ==> b as real <= x * 255.0 < b as real + 1.0
    ensures x == 1.0 ==> b == 255
  {
    var t := Trunc(x * 255.0);
    assert 0.0 <= x <= 1.0 ==> t <= 255 by {
      if 0.0 <= x <= 1.0 && t > 255 { assert false; }
    }
    t
  }

  /** The list comprehension `[int(x * 255) for x in rgb]`. */
  function ToBytes(rgb: Rgb): (c: Rgb8)
    ensures InUnit(rgb) ==> 0 <= c.r <= 255 && 0 <= c.g <= 255 && 0 <= c.b <= 255
  {
    Rgb8(ChannelByte(rgb.r), ChannelByte(rgb.g), ChannelByte(rgb.b))
  }

  function Min3(a: real, b: real, c: real): real { Min(a, Min(b, c)) }
  function Max3(a: real, b: real, c: real): real
  {
    var bc := if b >= c then b else c;
    if a >= bc then a else bc
  }

  predicate InUnit(rgb: Rgb)
  {
    0.0 <= rgb.r <= 1.0 && 0.0 <= rgb.g <= 1.0 && 0.0 <= rgb.b <= 1.0
  }

  /** Any arrangement of three ordered components has the smallest as its
      minimum channel and the largest as its maximum. */
  lemma ArrangementExtremes(rgb: Rgb, hi: real, mid: real, lo: real)
    requires lo <= mid <= hi && IsArrangement(rgb, hi, mid, lo)
    ensures Min3(rgb.r, rgb.g, rgb.b) == lo && Max3(rgb.r, rgb.g, rgb.b) == hi
    ensures lo <= rgb.r <= hi && lo <= rgb.g <= hi && lo <= rgb.b <= hi
  {
  }

  /** Both sector assignments, applied to m, x + m = c*w + m and c + m with
      c, m and c + m in range, give channels in [0, 1] with m smallest and
      c + m largest. */
  lemma ArrangedBounds(hf: real, c: real, w: real, m: real)
    ensures (0.0 <= c && 0.0 <= w <= 1.0 && 0.0 <= m && c + m <= 1.0) ==>
      var rgb := Sectors(hf, c + m, c * w + m, m);
      && Min3(rgb.r, rgb.g, rgb.b) == m && Max3(rgb.r, rgb.g, rgb.b) == m + c && InUnit(rgb)
    ensures (0.0 <= c && 0.0 <= w <= 1.0 && 0.0 <= m && c + m <= 1.0) ==>
      var rgb := SixSectors(hf, c + m, c * w + m, m);
      && Min3(rgb.r, rgb.g, rgb.b) == m && Max3(rgb.r, rgb.g, rgb.b) == m + c && InUnit(rgb)
  {
    if 0.0 <= c && 0.0 <= w <= 1.0 && 0.0 <= m && c + m <= 1.0 {
      ScaleDown(c, w);
      ArrangementExtremes(Sectors(hf, c + m, c * w + m, m), c + m, c * w + m, m);
      ArrangementExtremes(SixSectors(hf, c + m, c * w + m, m), c + m, c * w + m, m);
    }
  }

  /** For valid percentages the chroma is non-negative and m = l - c/2 and
      c + m lie in [0, 1]. */
  lemma ComponentBounds(s: real, l: real)
    ensures 0.0 <= s <= 100.0 && 0.0 <= l <= 100.0 ==>
      0.0 <= Chroma(s, l) && 0.0 <= Low(s, l) && Chroma(s, l) + Low(s, l) <= 1.0
    ensures s == 0.0 ==> Chroma(s, l) == 0.0 && Low(s, l) == l / 100.0
  {
    if 0.0 <= s <= 100.0 && 0.0 <= l <= 100.0 {
      ChromaArith(l / 100.0, s / 100.0);
    }
  }

  lemma ChromaArith(lf: real, sf: real)
    requires 0.0 <= lf <= 1.0 && 0.0 <= sf <= 1.0
    ensures var c := (1.0 - Abs(2.0 * lf - 1.0)) * sf;
      0.0 <= c && 0.0 <= lf - c / 2.0 && c + (lf - c / 2.0) <= 1.0
  {
    var t := 1.0 - Abs(2.0 * lf - 1.0);
    assert 0.0 <= t <= 2.0 * lf && t <= 2.0 - 2.0 * lf;
    ScaledHalf(lf, t, sf, t * sf);
  }

  lemma ScaledHalf(lf: real, t: real, sf: real, c: real)
    requires 0.0 <= t <= 2.0 * lf && t <= 2.0 - 2.0 * lf && 0.0 <= sf <= 1.0 && c == t * sf
    ensures 0.0 <= c && 0.0 <= lf - c / 2.0 && c + (lf - c / 2.0) <= 1.0
  {
    ScaleDown(t, sf);
    assert 0.0 <= c <= t;
  }

  /** An independent, cyclic definition of the HSL model (its "alternative"
      formula): with a = s * min(l, 1 - l), channel n of
      (R, G, B) = (f(0), f(8), f(4)) is l - a * Shape(k), k = (n + h/30) mod 12. */
  function Reference(h: real, s: real, l: real): Rgb
  {
    ReferenceFrom(h, l / 100.0, HalfChroma(s, l))
  }

  /** The reference colour from the hue in degrees, the lightness fraction lf
      and a. */
  function ReferenceFrom(h: real, lf: real, a: real): Rgb
  {
    Rgb(ReferenceChannel(0.0, h, lf, a), ReferenceChannel(8.0, h, lf, a), ReferenceChannel(4.0, h, lf, a))
  }

  function ReferenceChannel(n: real, h: real, lf: real, a: real): real
  {
    lf - a * Tent(n, h)
  }

  /** The reference's clamped tent at position (n + h/30) mod 12. */
  function Tent(n: real, h: real): (t: real)
    ensures -1.0 <= t <= 1.0
  {
    Shape(PyMod(n + h / 30.0, 12.0))
  }

  /** The reference's `a = s * min(l, 1 - l)`, for percentages s and l. */
  function HalfChroma(s: real, l: real): real
  {
    (s / 100.0) * Min(l / 100.0, 1.0 - l / 100.0)
  }

  /** The reference's clamped tent max(-1, min(k - 3, 9 - k, 1)). */
  function Shape(k: real): (r: real)
    ensures -1.0 <= r <= 1.0
  {
    var t := Min(Min(k - 3.0, 9.0 - k), 1.0);
    if t >= -1.0 then t else -1.0
  }

  /** On the hue wheel proper, [0, 360), the corrected conversion agrees with
      the reference definition for every saturation and lightness. */
  lemma FixedMatchesReference(h: real, s: real, l: real)
    requires 0.0 <= h < 360.0
    ensures HslToRgbFixed(h, s, l) == Reference(h, s, l)
  {
    var lf, a := l / 100.0, HalfChroma(s, l);
    ChromaIsTwiceA(s, l);
    assert HslToRgbFixed(h, s, l) == AssembleFixed(h / 360.0, 2.0 * a, HueWeight(h), lf - a);
    var hh := (h / 360.0) * 6.0;
    if hh < 1.0 { Sector0(h, lf, a); }
    else if hh < 2.0 { Sector1(h, lf, a); }
    else if hh < 3.0 { Sector2(h, lf, a); }
    else if hh < 4.0 { Sector3(h, lf, a); }
    else if hh < 5.0 { Sector4(h, lf, a); }
    else { Sector5(h, lf, a); }
  }

  /** The conversion as written agrees with the reference on [0, 300) and,
      on [300, 360), returns the reference colour with red and blue
      exchanged. */
  lemma AsWrittenAgainstReference(h: real, s: real, l: real)
    requires 0.0 <= h < 360.0
    ensures h < 300.0 ==> HslToRgb(h, s, l) == Reference(h, s, l)
    ensures h >= 300.0 ==>
      var ref := Reference(h, s, l);
      HslToRgb(h, s, l) == Rgb(ref.b, ref.g, ref.r)
  {
    FixedMatchesReference(h, s, l);
  }

  /** The reference definition is cyclic in the hue with period 360. */
  lemma ReferencePeriodic(h: real, s: real, l: real)
    ensures Reference(h + 360.0, s, l) == Reference(h, s, l)
  {
    ChannelPeriodic(0.0, h, l / 100.0, HalfChroma(s, l));
    ChannelPeriodic(8.0, h, l / 100.0, HalfChroma(s, l));
    ChannelPeriodic(4.0, h, l / 100.0, HalfChroma(s, l));
  }

  lemma ChannelPeriodic(n: real, h: real, lf: real, a: real)
    ensures Tent(n, h + 360.0) == Tent(n, h)
    ensures ReferenceChannel(n, h + 360.0, lf, a) == ReferenceChannel(n, h, lf, a)
  {
    assert n + (h + 360.0) / 30.0 == (n + h / 30.0) + 12.0;
    PyModShift(n + h / 30.0, 12.0);
  }

  /** The defect behind the corrected conversion: at hue 330 (a red-leaning
      magenta), full saturation and half lightness, the conversion as written
      gives a blue-leaning violet; the reference gives the magenta. */
  lemma MissingSixthSector()
    ensures HslToRgb(330.0, 100.0, 50.0) == Rgb(0.5, 0.0, 1.0)
    ensures Reference(330.0, 100.0, 50.0) == Rgb(1.0, 0.0, 0.5)
    ensures HslToRgbFixed(330.0, 100.0, 50.0) == Reference(330.0, 100.0, 50.0)
  {
    assert Chroma(100.0, 50.0) == 1.0;
    PyModWhen((330.0 / 360.0) * 6.0, 2.0, 2);
    assert HueWeight(330.0) == 0.5;
    FixedMatchesReference(330.0, 100.0, 50.0);
  }

  /** Neither conversion wraps the hue: 370 degrees is not treated as 10
      degrees, although the reference definition, being cyclic, does so. */
  lemma HueNotCyclic()
    ensures HslToRgb(10.0, 100.0, 50.0) == Rgb(1.0, 1.0 / 6.0, 0.0)
    ensures HslToRgb(370.0, 100.0, 50.0) == Rgb(1.0 / 6.0, 0.0, 1.0)
    ensures HslToRgbFixed(370.0, 100.0, 50.0) == Rgb(1.0, 0.0, 1.0 / 6.0)
    ensures Reference(370.0, 100.0, 50.0) == Reference(10.0, 100.0, 50.0) == HslToRgb(10.0, 100.0, 50.0)
  {
    assert Chroma(100.0, 50.0) == 1.0;
    PyModWhen((10.0 / 360.0) * 6.0, 2.0, 0);
    PyModWhen((370.0 / 360.0) * 6.0, 2.0, 3);
    assert HueWeight(10.0) == 1.0 / 6.0;
    assert HueWeight(370.0) == 1.0 / 6.0;
    ReferencePeriodic(10.0, 100.0, 50.0);
    FixedMatchesReference(10.0, 100.0, 50.0);
  }

  /** The chroma is twice the reference's `a`, so m = l - a. */
  lemma ChromaIsTwiceA(s: real, l: real)
    ensures Chroma(s, l) == 2.0 * HalfChroma(s, l)
    ensures Low(s, l) == l / 100.0 - HalfChroma(s, l)
  {
    var lf := l / 100.0;
    assert 1.0 - Abs(2.0 * lf - 1.0) == 2.0 * Min(lf, 1.0 - lf);
  }

  /** The three components c + m, c*w + m and m, written in the reference's
      form l - a * shape with shapes -1, 1 - 2w and 1. */
  lemma Blend(lf: real, a: real, c: real, w: real)
    requires c == 2.0 * a
    ensures c + (lf - a) == lf - a * -1.0
    ensures c * w + (lf - a) == lf - a * (1.0 - 2.0 * w)
    ensures lf - a == lf - a * 1.0
  {
  }

  /** Within sector j of the hue circle the hue weight is the distance of
      h*6/360 from the sector's even end (the nearest even integer), a
      linear function of h. */
  lemma WeightAt(h: real, j: int)
    requires 0 <= j && j as real <= (h / 360.0) * 6.0 < (j + 1) as real
    ensures HueWeight(h) == if j % 2 == 0 then (h / 360.0) * 6.0 - j as real else (j + 1) as real - (h / 360.0) * 6.0
  {
    var hh, q := (h / 360.0) * 6.0, j / 2;
    if j % 2 == 0 {
      assert q as real * 2.0 == j as real;
    } else {
      assert q as real * 2.0 == (j - 1) as real;
    }
    PyModWhen(hh, 2.0, q);
    assert PyMod(hh, 2.0) == hh - q as real * 2.0;
  }

  /** The tent at channel n once the position n + h/30 is known to lie in
      the q-th turn of the 12-step circle. */
  lemma TentAt(n: real, h: real, q: int)
    requires q as real * 12.0 <= n + h / 30.0 < (q + 1) as real * 12.0
    ensures Tent(n, h) == Shape(n + h / 30.0 - q as real * 12.0)
  {
    PyModWhen(n + h / 30.0, 12.0, q);
  }

  /** With c = 2a and m = l - a, the six-way assignment of c + m, c*w + m and
      m is the reference's colour l - a * t, channel by channel, whenever
      the tents t take the values of the hue's sector: -1 for the largest,
      1 - 2w for the intermediate and 1 for the smallest component. */
  lemma SectorCore(hf: real, lf: real, a: real, w: real, t0: real, t8: real, t4: real)
    ensures var rgb, ref := AssembleFixed(hf, 2.0 * a, w, lf - a), Rgb(lf - a * t0, lf - a * t8, lf - a * t4);
      && (hf < 1.0 / 6.0 && t0 == -1.0 && t8 == 1.0 - 2.0 * w && t4 == 1.0 ==> rgb == ref)
      && (1.0 / 6.0 <= hf < 1.0 / 3.0 && t0 == 1.0 - 2.0 * w && t8 == -1.0 && t4 == 1.0 ==> rgb == ref)
      && (1.0 / 3.0 <= hf < 1.0 / 2.0 && t0 == 1.0 && t8 == -1.0 && t4 == 1.0 - 2.0 * w ==> rgb == ref)
      && (1.0 / 2.0 <= hf < 2.0 / 3.0 && t0 == 1.0 && t8 == 1.0 - 2.0 * w && t4 == -1.0 ==> rgb == ref)
      && (2.0 / 3.0 <= hf < 5.0 / 6.0 && t0 == 1.0 - 2.0 * w && t8 == 1.0 && t4 == -1.0 ==> rgb == ref)
      && (5.0 / 6.0 <= hf && t0 == -1.0 && t8 == 1.0 && t4 == 1.0 - 2.0 * w ==> rgb == ref)
  {
    Blend(lf, a, 2.0 * a, w);
  }

  lemma Sector0(h: real, lf: real, a: real)
    requires 0.0 <= (h / 360.0) * 6.0 < 1.0
    ensures AssembleFixed(h / 360.0, 2.0 * a, HueWeight(h), lf - a) == ReferenceFrom(h, lf, a)
  {
    TentSector0(h);
    SectorCore(h / 360.0, lf, a, HueWeight(h), Tent(0.0, h), Tent(8.0, h), Tent(4.0, h));
  }

  lemma TentSector0(h: real)
    requires 0.0 <= (h / 360.0) * 6.0 < 1.0
    ensures var w := HueWeight(h);
      Tent(0.0, h) == -1.0 && Tent(8.0, h) == 1.0 - 2.0 * w && Tent(4.0, h) == 1.0
  {
    WeightAt(h, 0);
    TentAt(0.0, h, 0);
    TentAt(8.0, h, 0);
    TentAt(4.0, h, 0);
  }

  lemma Sector1(h: real, lf: real, a: real)
    requires 1.0 <= (h / 360.0) * 6.0 < 2.0
    ensures AssembleFixed(h / 360.0, 2.0 * a, HueWeight(h), lf - a) == ReferenceFrom(h, lf, a)
  {
    TentSector1(h);
    SectorCore(h / 360.0, lf, a, HueWeight(h), Tent(0.0, h), Tent(8.0, h), Tent(4.0, h));
  }

  lemma TentSector1(h: real)
    requires 1.0 <= (h / 360.0) * 6.0 < 2.0
    ensures var w := HueWeight(h);
      Tent(0.0, h) == 1.0 - 2.0 * w && Tent(8.0, h) == -1.0 && Tent(4.0, h) == 1.0
  {
    WeightAt(h, 1);
    TentAt(0.0, h, 0);
    TentAt(8.0, h, 0);
    TentAt(4.0, h, 0);
  }

  lemma Sector2(h: real, lf: real, a: real)
    requires 2.0 <= (h / 360.0) * 6.0 < 3.0
    ensures AssembleFixed(h / 360.0, 2.0 * a, HueWeight(h), lf - a) == ReferenceFrom(h, lf, a)
  {
    TentSector2(h);
    SectorCore(h / 360.0, lf, a, HueWeight(h), Tent(0.0, h), Tent(8.0, h), Tent(4.0, h));
  }

  lemma TentSector2(h: real)
    requires 2.0 <= (h / 360.0) * 6.0 < 3.0
    ensures var w := HueWeight(h);
      Tent(0.0, h) == 1.0 && Tent(8.0, h) == -1.0 && Tent(4.0, h) == 1.0 - 2.0 * w
  {
    WeightAt(h, 2);
    TentAt(0.0, h, 0);
    TentAt(8.0, h, 1);
    TentAt(4.0, h, 0);
  }

  lemma Sector3(h: real, lf: real, a: real)
    requires 3.0 <= (h / 360.0) * 6.0 < 4.0
    ensures AssembleFixed(h / 360.0, 2.0 * a, HueWeight(h), lf - a) == ReferenceFrom(h, lf, a)
  {
    TentSector3(h);
    SectorCore(h / 360.0, lf, a, HueWeight(h), Tent(0.0, h), Tent(8.0, h), Tent(4.0, h));
  }

  lemma TentSector3(h: real)
    requires 3.0 <= (h / 360.0) * 6.0 < 4.0
    ensures var w := HueWeight(h);
      Tent(0.0, h) == 1.0 && Tent(8.0, h) == 1.0 - 2.0 * w && Tent(4.0, h) == -1.0
  {
    WeightAt(h, 3);
    TentAt(0.0, h, 0);
    TentAt(8.0, h, 1);
    TentAt(4.0, h, 0);
  }

  lemma Sector4(h: real, lf: real, a: real)
    requires 4.0 <= (h / 360.0) * 6.0 < 5.0
    ensures AssembleFixed(h / 360.0, 2.0 * a, HueWeight(h), lf - a) == ReferenceFrom(h, lf, a)
  {
    TentSector4(h);
    SectorCore(h / 360.0, lf, a, HueWeight(h), Tent(0.0, h), Tent(8.0, h), Tent(4.0, h));
  }

  lemma TentSector4(h: real)
    requires 4.0 <= (h / 360.0) * 6.0 < 5.0
    ensures var w := HueWeight(h);
      Tent(0.0, h) == 1.0 - 2.0 * w && Tent(8.0, h) == 1.0 && Tent(4.0, h) == -1.0
  {
    WeightAt(h, 4);
    TentAt(0.0, h, 0);
    TentAt(8.0, h, 1);
    TentAt(4.0, h, 1);
  }

  lemma Sector5(h: real, lf: real, a: real)
    requires 5.0 <= (h / 360.0) * 6.0 < 6.0
    ensures AssembleFixed(h / 360.0, 2.0 * a, HueWeight(h), lf - a) == ReferenceFrom(h, lf, a)
  {
    TentSector5(h);
    SectorCore(h / 360.0, lf, a, HueWeight(h), Tent(0.0, h), Tent(8.0, h), Tent(4.0, h));
  }

  lemma TentSector5(h: real)
    requires 5.0 <= (h / 360.0) * 6.0 < 6.0
    ensures var w := HueWeight(h);
      Tent(0.0, h) == -1.0 && Tent(8.0, h) == 1.0 && Tent(4.0, h) == 1.0 - 2.0 * w
  {
    WeightAt(h, 5);
    TentAt(0.0, h, 0);
    TentAt(8.0, h, 1);
    TentAt(4.0, h, 1);
  }
}

=== FILE: filename.dfy ===
/** `generate_filename`: the next free name `<dir>/<base><n>.png`, where n is
    one more than the largest number found in the names of the directory's
    files that start with the base name. The directory listing is a
    parameter. */
module Filename {
  import opened Wrappers

  function MaxInt(a: int, b: int): (r: int)
    ensures r >= a && r >= b && (r == a || r == b)
  {
    if a >= b then a else b
  }

  // ---- Decimal digits ----------------------------------------------------

  predicate IsDigit(c: char)
  {
    '0' <= c <= '9'
  }

  function DigitValue(c: char): (d: nat)
    requires IsDigit(c)
    ensures d <= 9
  {
    (c as int - '0' as int) as nat
  }

  function DigitChar(d: nat): (c: char)
    requires d <= 9
    ensures IsDigit(c) && DigitValue(c) == d
  {
    ('0' as int + d) as char
  }

  /** Every character is a decimal digit. */
  predicate AllDigits(s: string)
  {
    |s| == 0 || (AllDigits(s[..|s| - 1]) && IsDigit(s[|s| - 1]))
  }

  lemma {:induction false} FirstDigit(s: string)
    requires |s| > 0 && AllDigits(s)
    ensures IsDigit(s[0])
  {
    if |s| > 1 {
      FirstDigit(s[..|s| - 1]);
    }
  }

  /** The number a string of decimal digits spells, most significant first;
      leading zeros are allowed. */
  function DigitsValue(s: string): nat
    requires AllDigits(s)
  {
    if |s| == 0 then 0 else 10 * DigitsValue(s[..|s| - 1]) + DigitValue(s[|s| - 1])
  }

  /** `str(n)` for a non-negative integer: its decimal digits without
      leading zeros. */
  function NatToString(n: nat): (s: string)
    ensures |s| >= 1 && AllDigits(s)
    ensures s[0] == '0' ==> n == 0
  {
    if n < 10 then [DigitChar(n)]
    else
      var init := NatToString(n / 10);
      var s := init + [DigitChar(n % 10)];
      assert s[..|s| - 1] == init;
      s
  }

  lemma {:induction false} DigitsOfNatToString(n: nat)
    ensures DigitsValue(NatToString(n)) == n
  {
    var s := NatToString(n);
    if n >= 10 {
      DigitsOfNatToString(n / 10);
      assert s[..|s| - 1] == NatToString(n / 10);
    }
  }

  // ---- Python's int() on a string ----------------------------------------

  /** The ASCII characters Python's `int()` strips as white space: space
      and tab to carriage return. */
  predicate IsSpace(c: char)
  {
    c == ' ' || (9 <= c as int <= 13)
  }

  function TrimStart(s: string): string
  {
    if |s| > 0 && IsSpace(s[0]) then TrimStart(s[1..]) else s
  }

  function TrimEnd(s: string): string
  {
    if |s| > 0 && IsSpace(s[|s| - 1]) then TrimEnd(s[..|s| - 1]) else s
  }

  /** A numeral body: digits, optionally separated by single underscores,
      neither starting nor ending with one. Read from the end: a digit,
      preceded by nothing, by a numeral, or by an underscore and a numeral. */
  predicate IsNumeral(s: string)
  {
    && |s| > 0 && IsDigit(s[|s| - 1])
    && (|s| == 1 ||
        if s[|s| - 2] == '_' then |s| >= 3 && IsNumeral(s[..|s| - 2])
        else IsNumeral(s[..|s| - 1]))
  }

  /** The value of a numeral, its underscores ignored. */
  function NumeralValue(s: string): nat
    requires IsNumeral(s)
  {
    var d := DigitValue(s[|s| - 1]);
    if |s| == 1 then d
    else if s[|s| - 2] == '_' then 10 * NumeralValue(s[..|s| - 2]) + d
    else 10 * NumeralValue(s[..|s| - 1]) + d
  }

  /** `int(s)` for a string in base 10: surrounding white space, an optional
      sign and a numeral; anything else raises ValueError, here None. */
  function ParseInt(s: string): Option<int>
  {
    var t := TrimEnd(TrimStart(s));
    if |t| > 0 && (t[0] == '-' || t[0] == '+') then
      if IsNumeral(t[1..]) then
        var v: int := NumeralValue(t[1..]);
        Some(if t[0] == '-' then -v else v)
      else None
    else if IsNumeral(t) then Some(NumeralValue(t))
    else None
  }

  /** A plain digit string is a numeral with the same value. */
  lemma {:induction false} DigitsAreNumeral(s: string)
    requires |s| > 0 && AllDigits(s)
    ensures IsNumeral(s) && NumeralValue(s) == DigitsValue(s)
  {
    if |s| > 1 {
      var init := s[..|s| - 1];
      DigitsAreNumeral(init);
      assert s[|s| - 2] == init[|init| - 1];
    }
  }

  /** A plain digit string, leading zeros included, parses to its value. */
  lemma ParseDigits(s: string)
    requires |s| > 0 && AllDigits(s)
    ensures ParseInt(s) == Some(DigitsValue(s))
  {
    FirstDigit(s);
    assert TrimStart(s) == s;
    assert TrimEnd(s) == s;
    DigitsAreNumeral(s);
  }

  /** `int(str(n)) == n`: the decimal form of a number parses back to it. */
  lemma ParseNatToString(n: nat)
    ensures ParseInt(NatToString(n)) == Some(n)
  {
    ParseDigits(NatToString(n));
    DigitsOfNatToString(n);
  }

  /** The empty string, blank space and a lone sign are not numbers. */
  lemma ParseRejects()
    ensures ParseInt("") == None
    ensures ParseInt(" ") == None
    ensures ParseInt("-") == None
  {
    assert TrimStart(" ") == "";
  }

  /** White space around the numeral is stripped. */
  lemma ParseAcceptsSpace()
    ensures ParseInt(" 12\n") == Some(12)
  {
    assert TrimStart(" 12\n") == "12\n";
    assert TrimEnd("12\n") == "12";
    assert IsNumeral("12") && NumeralValue("12") == 12 by {
      assert "12"[..1] == "1";
    }
  }

  /** The ASCII separators 0x1C-0x1F are not white space to `int()`: a
      numeral behind one does not parse. */
  lemma ParseRejectsSeparator()
    ensures ParseInt([28 as char, '5']) == None
  {
    assert TrimStart([28 as char, '5']) == [28 as char, '5'];
    assert TrimEnd([28 as char, '5']) == [28 as char, '5'];
    assert !IsNumeral([28 as char, '5']) by {
      assert [28 as char, '5'][..1] == [28 as char];
    }
  }

  /** A leading minus sign negates. */
  lemma ParseAcceptsSign()
    ensures ParseInt("-3") == Some(-3)
  {
    assert "-3"[1..] == "3";
  }

  /** Single underscores between digits are accepted and ignored. */
  lemma ParseUnderscore()
    ensures ParseInt("1_0") == Some(10)
  {
    assert TrimStart("1_0") == "1_0" && TrimEnd("1_0") == "1_0";
    assert IsNumeral("1_0") && NumeralValue("1_0") == 10 by {
      assert "1_0"[..1] == "1";
    }
  }

  /** A doubled underscore, and one at either end, is rejected. */
  lemma ParseBadUnderscores()
    ensures ParseInt("1__0") == None
    ensures ParseInt("_1") == None
    ensures ParseInt("1_") == None
  {
    assert TrimStart("1__0") == "1__0" && TrimEnd("1__0") == "1__0";
    assert !IsNumeral("1__0") by { assert "1__0"[..2] == "1_"; }
    assert TrimStart("_1") == "_1" && TrimEnd("_1") == "_1";
    assert TrimStart("1_") == "1_" && TrimEnd("1_") == "1_";
  }

  // ---- The file name -----------------------------------------------------

  predicate StartsWith(s: string, prefix: string)
  {
    |prefix| <= |s| && s[..|prefix|] == prefix
  }

  /** Python's slice `file[start:-4]`: the characters from `start` up to, but
      not including, the last four; empty when that range is empty. */
  function Middle(file: string, start: nat): (m: string)
    ensures |file| >= 4 && start <= |file| - 4 ==> m == file[start..|file| - 4]
    ensures (|file| < 4 || start > |file| - 4) ==> m == []
  {
    var end := if |file| >= 4 then |file| - 4 else 0;
    if start <= end then file[start..end] else []
  }

  /** The number a directory entry contributes: its middle part parsed, when
      the entry starts with the base name and the part is a number. */
  function FileNumber(baseName: string, file: string): Option<int>
  {
    if StartsWith(file, baseName) then ParseInt(Middle(file, |baseName|)) else None
  }

  /** f applied to every element, in order. */
  function MapSeq<A, B>(f: A -> B, xs: seq<A>): (ys: seq<B>)
    ensures |ys| == |xs| && forall i :: 0 <= i < |xs| ==> ys[i] == f(xs[i])
  {
    seq(|xs|, i requires 0 <= i < |xs| => f(xs[i]))
  }

  lemma MapSeqAppend<A, B>(f: A -> B, a: seq<A>, b: seq<A>)
    ensures MapSeq(f, a + b) == MapSeq(f, a) + MapSeq(f, b)
  {
    var l, r := MapSeq(f, a + b), MapSeq(f, a) + MapSeq(f, b);
    forall i | 0 <= i < |l| ensures l[i] == r[i] {
      if i < |a| { assert (a + b)[i] == a[i]; } else { assert (a + b)[i] == b[i - |a|]; }
    }
  }

  /** The numbers the entries of a listing carry, entry by entry. */
  function Numbers(baseName: string, files: seq<string>): (nums: seq<Option<int>>)
    ensures |nums| == |files|
    ensures forall i :: 0 <= i < |files| ==> nums[i] == FileNumber(baseName, files[i])
  {
    MapSeq(file => FileNumber(baseName, file), files)
  }

  /** `highest_num = max(highest_num, num)` over the numbers in order,
      starting from 0: the largest number present, or 0 when none is
      positive. */
  function MaxOf(nums: seq<Option<int>>): (r: int)
    ensures r >= 0
    ensures forall i :: 0 <= i < |nums| && nums[i].Some? ==> nums[i].value <= r
    ensures r == 0 || exists i :: 0 <= i < |nums| && nums[i] == Some(r)
  {
    if |nums| == 0 then 0
    else
      var last := nums[|nums| - 1];
      MaxInt(MaxOf(nums[..|nums| - 1]), if last.Some? then last.value else 0)
  }

  /** The highest number in use among the entries of a listing. */
  function HighestNum(baseName: string, files: seq<string>): int
  {
    MaxOf(Numbers(baseName, files))
  }

  /** The highest number is 0 or carried by some entry, and no entry
      carries a larger one. */
  lemma HighestNumIsMax(baseName: string, files: seq<string>)
    ensures HighestNum(baseName, files) >= 0
    ensures forall i :: 0 <= i < |files| && FileNumber(baseName, files[i]).Some? ==>
      FileNumber(baseName, files[i]).value <= HighestNum(baseName, files)
    ensures HighestNum(baseName, files) == 0 ||
      exists i :: 0 <= i < |files| && FileNumber(baseName, files[i]) == Some(HighestNum(baseName, files))
  {
    var nums := Numbers(baseName, files);
    var r := MaxOf(nums);
    if r != 0 {
      var i :| 0 <= i < |nums| && nums[i] == Some(r);
      assert FileNumber(baseName, files[i]) == Some(r);
    }
  }

  /** The loop of `generate_filename` over the directory listing. */
  method NextFileNumber(baseName: string, files: seq<string>) returns (n: int)
    ensures n == HighestNum(baseName, files) + 1
  {
    ghost var nums := Numbers(baseName, files);
    var highest := 0;
    for i := 0 to |files|
      invariant highest == MaxOf(nums[..i])
    {
      var file := files[i];
      if StartsWith(file, baseName) {
        var num := ParseInt(Middle(file, |baseName|));
        if num.Some? {
          highest := MaxInt(highest, num.value);
        }
      }
      assert nums[..i + 1][..i] == nums[..i];
    }
    assert nums[..|files|] == nums;
    n := highest + 1;
  }

  /** The name, without the directory, of the file the next wallpaper is
      saved under. */
  function NextName(baseName: string, files: seq<string>): string
  {
    baseName + NatToString(HighestNum(baseName, files) + 1) + ".png"
  }

  /** `generate_filename(base_dir, base_name)` with the listing of base_dir:
      a path inside the directory whose name carries the number one past the
      highest in use. */
  function GenerateFilename(baseDir: string, baseName: string, files: seq<string>): (path: string)
    ensures |path| > |baseDir| && path[..|baseDir| + 1] == baseDir + "/"
    ensures FileNumber(baseName, path[|baseDir| + 1..]) == Some(HighestNum(baseName, files) + 1)
  {
    var name := NextName(baseName, files);
    var path := baseDir + "/" + name;
    assert path[|baseDir| + 1..] == name;
    NextNameNumber(baseName, files);
    path
  }

  /** The next name carries the next number. */
  lemma NextNameNumber(baseName: string, files: seq<string>)
    ensures FileNumber(baseName, NextName(baseName, files)) == Some(HighestNum(baseName, files) + 1)
  {
    SavedNameNumber(baseName, HighestNum(baseName, files) + 1);
  }

  /** A name written by the generator carries its number back. */
  lemma SavedNameNumber(baseName: string, n: nat)
    ensures FileNumber(baseName, baseName + NatToString(n) + ".png") == Some(n)
  {
    var digits := NatToString(n);
    var file := baseName + digits + ".png";
    assert file[..|baseName|] == baseName;
    assert Middle(file, |baseName|) == digits by {
      assert file[|baseName|..|file| - 4] == digits;
    }
    ParseNatToString(n);
  }

  /** The next number is at least 1 and exceeds every number in use. */
  lemma NextExceedsAll(baseName: string, files: seq<string>)
    ensures HighestNum(baseName, files) + 1 >= 1
    ensures forall i :: 0 <= i < |files| && FileNumber(baseName, files[i]).Some? ==>
      FileNumber(baseName, files[i]).value < HighestNum(baseName, files) + 1
  {
    HighestNumIsMax(baseName, files);
  }

  /** The next name is not already in the directory, so saving under it
      overwrites nothing. */
  lemma NoOverwrite(baseName: string, files: seq<string>)
    ensures NextName(baseName, files) !in files
  {
    var name := NextName(baseName, files);
    HighestNumIsMax(baseName, files);
    forall i | 0 <= i < |files| ensures files[i] != name {
      SavedNameNumber(baseName, HighestNum(baseName, files) + 1);
    }
  }

  /** The numbers of a joined listing are the two parts' numbers joined. */
  lemma NumbersAppend(baseName: string, a: seq<string>, b: seq<string>)
    ensures Numbers(baseName, a + b) == Numbers(baseName, a) + Numbers(baseName, b)
  {
    MapSeqAppend(file => FileNumber(baseName, file), a, b);
  }

  lemma {:induction false} MaxOfAppend(a: seq<Option<int>>, b: seq<Option<int>>)
    ensures MaxOf(a + b) == MaxInt(MaxOf(a), MaxOf(b))
    decreases |b|
  {
    if |b| > 0 {
      var b' := b[..|b| - 1];
      assert (a + b)[..|a + b| - 1] == a + b';
      assert (a + b)[|a + b| - 1] == b[|b| - 1];
      MaxOfAppend(a, b');
    } else {
      assert a + b == a;
    }
  }

  /** The highest number of a listing is the larger of its two parts', so
      how the listing is split, and the order of the parts, do not matter. */
  lemma HighestNumAppend(baseName: string, a: seq<string>, b: seq<string>)
    ensures HighestNum(baseName, a + b) == MaxInt(HighestNum(baseName, a), HighestNum(baseName, b))
    ensures HighestNum(baseName, a + b) == HighestNum(baseName, b + a)
  {
    NumbersAppend(baseName, a, b);
    NumbersAppend(baseName, b, a);
    MaxOfAppend(Numbers(baseName, a), Numbers(baseName, b));
    MaxOfAppend(Numbers(baseName, b), Numbers(baseName, a));
  }

  /** Every entry of a is also an entry of b, so a's highest number is
      carried in b too. */
  lemma HighestNumSubset(baseName: string, a: seq<string>, b: seq<string>)
    requires forall i :: 0 <= i < |a| ==> a[i] in b
    ensures HighestNum(baseName, a) <= HighestNum(baseName, b)
  {
    HighestNumIsMax(baseName, a);
    HighestNumIsMax(baseName, b);
    var r := HighestNum(baseName, a);
    if r != 0 {
      var i :| 0 <= i < |a| && FileNumber(baseName, a[i]) == Some(r);
      var j :| 0 <= j < |b| && b[j] == a[i];
    }
  }

  /** The listing comes in no fixed order: any reordering of it, as a
      multiset of names, has the same highest number and so the same next
      name. */
  lemma HighestNumPermutation(baseName: string, a: seq<string>, b: seq<string>)
    requires multiset(a) == multiset(b)
    ensures HighestNum(baseName, a) == HighestNum(baseName, b)
    ensures NextName(baseName, a) == NextName(baseName, b)
  {
    forall i | 0 <= i < |a| ensures a[i] in b {
      assert a[i] in multiset(a);
    }
    forall j | 0 <= j < |b| ensures b[j] in a {
      assert b[j] in multiset(b);
    }
    HighestNumSubset(baseName, a, b);
    HighestNumSubset(baseName, b, a);
  }

  /** The highest number after one more entry. */
  lemma HighestNumSnoc(baseName: string, files: seq<string>, file: string)
    ensures HighestNum(baseName, files + [file]) ==
      MaxInt(HighestNum(baseName, files), if FileNumber(baseName, file).Some? then FileNumber(baseName, file).value else 0)
  {
    NumbersAppend(baseName, files, [file]);
    var nums := Numbers(baseName, files) + Numbers(baseName, [file]);
    assert nums[..|nums| - 1] == Numbers(baseName, files);
  }

  /** Entries that do not carry a number, whether they lack the base name or
      their middle part does not parse, leave the next name unchanged. */
  lemma IgnoresUnnumbered(baseName: string, files: seq<string>, file: string)
    requires FileNumber(baseName, file) == None
    ensures HighestNum(baseName, files + [file]) == HighestNum(baseName, files)
    ensures NextName(baseName, files + [file]) == NextName(baseName, files)
  {
    HighestNumSnoc(baseName, files, file);
    HighestNumIsMax(baseName, files);
    assert HighestNum(baseName, files + [file]) == HighestNum(baseName, files);
  }

  /** After the wallpaper is saved under the next name, the following call
      picks the number after it. */
  lemma NextAfterSave(baseName: string, files: seq<string>)
    ensures HighestNum(baseName, files + [NextName(baseName, files)]) == HighestNum(baseName, files) + 1
  {
    HighestNumSnoc(baseName, files, NextName(baseName, files));
    SavedNameNumber(baseName, HighestNum(baseName, files) + 1);
  }

  /** The last four characters are dropped whatever they are: a name without
      an extension loses digits of its number, and one no longer than the
      base name plus four characters carries none. */
  lemma SliceDropsAnyFour()
    ensures FileNumber("generated-", "generated-12345") == Some(1)
    ensures FileNumber("generated-", "generated-7.jpg") == Some(7)
    ensures FileNumber("generated-", "generated-1") == None
    ensures FileNumber("generated-", "generated-.png") == None
  {
    assert "generated-12345"[..10] == "generated-";
    assert Middle("generated-12345", 10) == "1";
    ParseDigits("1");
    assert "generated-7.jpg"[..10] == "generated-";
    assert Middle("generated-7.jpg", 10) == "7";
    ParseDigits("7");
    assert "generated-1"[..10] == "generated-";
    assert Middle("generated-1", 10) == "";
    assert "generated-.png"[..10] == "generated-";
    assert Middle("generated-.png", 10) == "";
  }
}

=== FILE: layers.dfy ===
/** The drawing (`draw`): a background rectangle in the starting colour and,
    over it, one filled polygon per layer whose upper edge is a sampled sine
    wave. The image library is replaced by the list of shapes it is asked to
    fill, in order, and `math.sin` by a parameter. */
module Layers {
  import opened Numeric
  import opened Color
  import opened Sampler

  type Point = (real, real)

  /** One call into the drawing library. */
  datatype Command =
    | Rectangle(corners: seq<Point>, fill: Rgb8)
    | Polygon(points: seq<Point>, fill: Rgb8)

  /** The divisions by the segment count and by the wavelength are defined;
      the sampler provides such parameters for every non-zero width. */
  predicate Drawable(p: Params)
  {
    p.segments >= 1 && p.wl != 0.0
  }

  /** The phase shift of layer l. */
  function LayerOffset(p: Params, l: int): real
  {
    p.offset + p.offsetIncrement * l as real
  }

  /** `(l + 0.5) * (height / layers)`: the centre line of layer l. */
  function OffsetY(l: int, layers: int, height: real): real
    requires layers >= 1
  {
    (l as real + 0.5) * (height / layers as real)
  }

  /** The first vertex's height: the centre line displaced once by the sine. */
  function StartY(p: Params, l: int, height: real, sin: real -> real): real
    requires p.layers >= 1 && p.wl != 0.0
  {
    OffsetY(l, p.layers, height) + p.ampl * sin(LayerOffset(p, l) / p.wl)
  }

  /** `i * (width / segments)`: the abscissa of the i-th wave sample. */
  function CurveX(i: int, width: real, segments: int): real
    requires segments >= 1
  {
    i as real * (width / segments as real)
  }

  /** The i-th wave sample. Its height adds a second sine term to StartY,
      which already carries one. */
  function CurvePoint(p: Params, l: int, i: int, width: real, height: real, sin: real -> real): Point
    requires Drawable(p) && p.layers >= 1
  {
    var x := CurveX(i, width, p.segments);
    (x, StartY(p, l, height, sin) + p.ampl * sin((LayerOffset(p, l) + x) / p.wl))
  }

  /** The polygon of layer l: the start vertex, segments + 1 wave samples from
      x = 0 to x = width, the two bottom corners, and the start vertex again,
      which closes the outline. */
  function LayerCoords(p: Params, l: int, width: real, height: real, sin: real -> real): (coords: seq<Point>)
    requires Drawable(p) && p.layers >= 1
    ensures |coords| == p.segments + 5
    ensures coords[0] == coords[|coords| - 1] == (0.0, StartY(p, l, height, sin))
    ensures coords[|coords| - 3] == (width, height) && coords[|coords| - 2] == (0.0, height)
    ensures forall i :: 0 <= i <= p.segments ==> coords[i + 1] == CurvePoint(p, l, i, width, height, sin)
  {
    var startY := StartY(p, l, height, sin);
    [(0.0, startY)]
      + seq(p.segments + 1, i requires 0 <= i <= p.segments => CurvePoint(p, l, i, width, height, sin))
      + [(width, height), (0.0, height), (0.0, startY)]
  }

  /** The inner loop of `draw`, appending one vertex at a time; it builds
      exactly LayerCoords. */
  method BuildCoords(p: Params, l: int, width: real, height: real, sin: real -> real) returns (coords: seq<Point>)
    requires Drawable(p) && p.layers >= 1
    ensures coords == LayerCoords(p, l, width, height, sin)
  {
    var startY := StartY(p, l, height, sin);
    coords := [(0.0, startY)];
    for i := 0 to p.segments + 1
      invariant |coords| == i + 1 && coords[0] == (0.0, startY)
      invariant forall k :: 0 <= k < i ==> coords[k + 1] == CurvePoint(p, l, k, width, height, sin)
    {
      var x := CurveX(i, width, p.segments);
      coords := coords + [(x, startY + p.ampl * sin((LayerOffset(p, l) + x) / p.wl))];
      assert coords[i + 1].0 == CurvePoint(p, l, i, width, height, sin).0;
      assert coords[i + 1].1 == CurvePoint(p, l, i, width, height, sin).1;
    }
    coords := coords + [(width, height), (0.0, height), (0.0, startY)];
    var spec := LayerCoords(p, l, width, height, sin);
    assert |coords| == |spec|;
    forall k | 0 <= k < |coords| ensures coords[k] == spec[k] {
      if 1 <= k <= p.segments + 1 {
        assert coords[k] == CurvePoint(p, l, k - 1, width, height, sin);
      }
    }
  }

  /** The fill of the background: the starting hue, saturation and lightness. */
  function Background(p: Params): Rgb8
  {
    ToBytes(HslToRgb(p.hueStart, p.sat, p.light))
  }

  /** The hue of layer l: l + 1 increments past the starting hue. */
  function LayerHue(p: Params, l: int): real
  {
    p.hueStart + (l + 1) as real * p.hueIncrement
  }

  /** The lightness of layer l: l + 1 increments past the starting lightness. */
  function LayerLight(p: Params, l: int): real
  {
    p.light + (l + 1) as real * p.lightIncrement
  }

  function LayerColor(p: Params, l: int): Rgb8
  {
    ToBytes(HslToRgb(LayerHue(p, l), p.sat, LayerLight(p, l)))
  }

  /** The background fill with the corrected conversion. */
  function BackgroundFixed(p: Params): Rgb8
  {
    ToBytes(HslToRgbFixed(p.hueStart, p.sat, p.light))
  }

  /** The fill of layer l with the corrected conversion. */
  function LayerColorFixed(p: Params, l: int): Rgb8
  {
    ToBytes(HslToRgbFixed(LayerHue(p, l), p.sat, LayerLight(p, l)))
  }

  /** The corrected fills are the drawn ones below hue 300 and the drawn ones
      with red and blue exchanged from 300 on. */
  lemma CorrectedFills(p: Params, l: int)
    ensures p.hueStart < 300.0 ==> BackgroundFixed(p) == Background(p)
    ensures p.hueStart >= 300.0 ==>
      BackgroundFixed(p) == Rgb8(Background(p).b, Background(p).g, Background(p).r)
    ensures LayerHue(p, l) < 300.0 ==> LayerColorFixed(p, l) == LayerColor(p, l)
    ensures LayerHue(p, l) >= 300.0 ==>
      LayerColorFixed(p, l) == Rgb8(LayerColor(p, l).b, LayerColor(p, l).g, LayerColor(p, l).r)
  {
  }

  /** `draw` without the image: the background rectangle over the whole
      canvas, then the polygon of every layer, bottom-most layer last. */
  method Render(p: Params, width: real, height: real, sin: real -> real) returns (cmds: seq<Command>)
    requires Drawable(p)
    ensures |cmds| == 1 + (if p.layers > 0 then p.layers else 0)
    ensures cmds[0] == Rectangle([(0.0, 0.0), (width, height)], Background(p))
    ensures forall l :: 0 <= l < p.layers ==>
      cmds[l + 1] == Polygon(LayerCoords(p, l, width, height, sin), LayerColor(p, l))
  {
    cmds := [Rectangle([(0.0, 0.0), (width, height)], Background(p))];
    var n := if p.layers > 0 then p.layers else 0;
    for l := 0 to n
      invariant |cmds| == l + 1
      invariant cmds[0] == Rectangle([(0.0, 0.0), (width, height)], Background(p))
      invariant forall k :: 0 <= k < l ==>
        cmds[k + 1] == Polygon(LayerCoords(p, k, width, height, sin), LayerColor(p, k))
    {
      var coords := BuildCoords(p, l, width, height, sin);
      cmds := cmds + [Polygon(coords, LayerColor(p, l))];
    }
  }

  /** The wave samples run from the left edge to the right edge in equal
      steps of width / segments, left to right when the width is not
      negative. */
  lemma CurveSpan(width: real, segments: int, i: int, j: int)
    requires segments >= 1
    ensures CurveX(0, width, segments) == 0.0
    ensures CurveX(segments, width, segments) == width
    ensures CurveX(i + 1, width, segments) - CurveX(i, width, segments) == width / segments as real
    ensures width >= 0.0 && i <= j ==> CurveX(i, width, segments) <= CurveX(j, width, segments)
  {
    var step := width / segments as real;
    assert segments as real * step == width;
    assert (i + 1) as real * step == i as real * step + step;
    if width > 0.0 && i <= j {
      MulMonotone(step, i as real, j as real);
      assert step * i as real <= step * j as real;
    }
  }

  /** Every centre line lies strictly inside the canvas, and layer l's in
      the l-th of `layers` equal horizontal bands. */
  lemma OffsetYBounds(l: int, layers: int, height: real)
    requires 0 <= l < layers && height > 0.0
    ensures 0.0 < OffsetY(l, layers, height) < height
    ensures l as real * (height / layers as real) < OffsetY(l, layers, height) < (l + 1) as real * (height / layers as real)
  {
    var band := height / layers as real;
    assert band > 0.0;
    assert layers as real * band == height;
    MulStrict(band, l as real, l as real + 0.5);
    MulStrict(band, l as real + 0.5, (l + 1) as real);
    MulMonotone(band, (l + 1) as real, layers as real);
    assert OffsetY(l, layers, height) == (l as real + 0.5) * band;
  }

  /** Each wave sample's height is the centre line plus two sine terms, the
      phase-only one from StartY and the one at the sample's abscissa; at
      the left edge the two coincide and the displacement is doubled. */
  lemma DoubledDisplacement(p: Params, l: int, i: int, width: real, height: real, sin: real -> real)
    requires Drawable(p) && p.layers >= 1
    ensures CurvePoint(p, l, i, width, height, sin).1 ==
      OffsetY(l, p.layers, height)
        + p.ampl * (sin(LayerOffset(p, l) / p.wl) + sin((LayerOffset(p, l) + CurveX(i, width, p.segments)) / p.wl))
    ensures CurvePoint(p, l, 0, width, height, sin).1 ==
      OffsetY(l, p.layers, height) + 2.0 * p.ampl * sin(LayerOffset(p, l) / p.wl)
  {
    CurveSpan(width, p.segments, 0, 0);
    assert LayerOffset(p, l) + CurveX(0, width, p.segments) == LayerOffset(p, l);
  }

  /** With a sine bounded by 1, every vertex of the wave, and the start
      vertex, stays within twice the amplitude of the layer's centre line. */
  lemma WaveBand(p: Params, l: int, width: real, height: real, sin: real -> real)
    requires Drawable(p) && p.layers >= 1
    requires forall t :: -1.0 <= sin(t) <= 1.0
    ensures var coords := LayerCoords(p, l, width, height, sin);
      forall k :: 0 <= k <= p.segments + 1 ==>
        Abs(coords[k].1 - OffsetY(l, p.layers, height)) <= 2.0 * Abs(p.ampl)
  {
    var coords := LayerCoords(p, l, width, height, sin);
    forall k | 0 <= k <= p.segments + 1
      ensures Abs(coords[k].1 - OffsetY(l, p.layers, height)) <= 2.0 * Abs(p.ampl)
    {
      if k == 0 {
        StartBand(p, l, height, sin);
      } else {
        SampleBand(p, l, k - 1, width, height, sin);
      }
    }
  }

  lemma StartBand(p: Params, l: int, height: real, sin: real -> real)
    requires p.layers >= 1 && p.wl != 0.0
    requires forall t :: -1.0 <= sin(t) <= 1.0
    ensures Abs(StartY(p, l, height, sin) - OffsetY(l, p.layers, height)) <= Abs(p.ampl)
  {
    SineTerm(p.ampl, sin(LayerOffset(p, l) / p.wl));
  }

  lemma SampleBand(p: Params, l: int, i: int, width: real, height: real, sin: real -> real)
    requires Drawable(p) && p.layers >= 1
    requires forall t :: -1.0 <= sin(t) <= 1.0
    ensures Abs(CurvePoint(p, l, i, width, height, sin).1 - OffsetY(l, p.layers, height)) <= 2.0 * Abs(p.ampl)
  {
    var t0 := LayerOffset(p, l) / p.wl;
    var t := (LayerOffset(p, l) + CurveX(i, width, p.segments)) / p.wl;
    var d := CurvePoint(p, l, i, width, height, sin).1 - OffsetY(l, p.layers, height);
    assert d == p.ampl * sin(t0) + p.ampl * sin(t);
    TwoSineTerms(p.ampl, sin(t0), sin(t));
  }

  lemma TwoSineTerms(ampl: real, v: real, w: real)
    requires -1.0 <= v <= 1.0 && -1.0 <= w <= 1.0
    ensures Abs(ampl * v + ampl * w) <= 2.0 * Abs(ampl)
  {
    SineTerm(ampl, v);
    SineTerm(ampl, w);
  }

  /** A displacement `ampl * v` with |v| <= 1 is at most |ampl| either way. */
  lemma SineTerm(ampl: real, v: real)
    requires -1.0 <= v <= 1.0
    ensures -Abs(ampl) <= ampl * v <= Abs(ampl)
  {
    var A, V := Abs(ampl), Abs(v);
    ScaleDown(A, V);
    assert A * V == ampl * v || A * V == -(ampl * v);
  }

  /** For sampled parameters the background is a valid colour: every channel
      in 0..255. */
  lemma BackgroundInRange(p: Params, width: real)
    requires InRange(p, width)
    ensures var c := Background(p); 0 <= c.r <= 255 && 0 <= c.g <= 255 && 0 <= c.b <= 255
  {
  }

  /** A layer whose lightness stays within [0, 100] gets a valid colour. */
  lemma LayerColorInRange(p: Params, l: int, width: real)
    requires InRange(p, width)
    requires 0.0 <= LayerLight(p, l) <= 100.0
    ensures var c := LayerColor(p, l); 0 <= c.r <= 255 && 0 <= c.g <= 255 && 0 <= c.b <= 255
  {
  }

  /** Nothing keeps the layer lightness within [0, 100]: twelve layers
      starting at lightness 59 and stepping by 5 reach 119, and that layer's
      colour has a blue channel above 255. */
  lemma LightnessLeavesRange()
    ensures var p := Params(1, 100.0, 12, 0.0, 0.0, 10.0, 0.0, 100.0, 20.0, 59.0, 5.0);
      && InRange(p, 1000.0)
      && LayerLight(p, 11) == 119.0
      && LayerColor(p, 11).b > 255
  {
    var p := Params(1, 100.0, 12, 0.0, 0.0, 10.0, 0.0, 100.0, 20.0, 59.0, 5.0);
    assert InRange(p, 1000.0);
    assert LayerHue(p, 11) == 0.0 && LayerLight(p, 11) == 119.0;
    OverbrightBlue();
  }

  lemma OverbrightBlue()
    ensures ToBytes(HslToRgb(0.0, 20.0, 119.0)).b == 313
  {
    var c, m := Chroma(20.0, 119.0), Low(20.0, 119.0);
    assert c == -0.076 by { assert Abs(2.0 * (119.0 / 100.0) - 1.0) == 1.38; }
    assert m == 1.228;
    var w := HueWeight(0.0);
    assert HslToRgb(0.0, 20.0, 119.0) == Sectors(0.0, c + m, c * w + m, m);
    assert (1.228 * 255.0).Floor == 313;
  }
}

=== FILE: numeric.dfy ===
/** Python's numeric primitives on floats, stated over mathematical reals:
    `math.floor`, the floor-based `%` operator and the truncating `int()`. */
module Numeric {

  function Abs(x: real): (r: real)
    ensures r >= 0.0 && (r == x || r == -x)
  {
    if x < 0.0 then -x else x
  }

  function Min(a: real, b: real): (r: real)
    ensures r <= a && r <= b && (r == a || r == b)
  {
    if a <= b then a else b
  }

  /** Python's `a % d` for a positive divisor: the remainder takes the sign
      of the divisor, so it always lies in [0, d). Computed by stepping a by
      whole divisors into [0, d); `PyModIsFloorMod` shows this is Python's
      floor-based definition. */
  function PyMod(a: real, d: real): (r: real)
    requires d > 0.0
    ensures 0.0 <= r < d
    decreases if a < 0.0 then 2 - (a / d).Floor else (a / d).Floor
  {
    DivShift(a, d);
    if a < 0.0 then PyMod(a + d, d) else if a >= d then PyMod(a - d, d) else a
  }

  /** Python's own definition of `%` on floats: a - d * floor(a / d). */
  function FloorMod(a: real, d: real): real
    requires d > 0.0
  {
    a - d * (a / d).Floor as real
  }

  lemma DivOf(x: real, d: real, q: real)
    requires d > 0.0 && q * d == x
    ensures x / d == q
  {
  }

  /** Shifting a by one divisor shifts floor(a / d) by one. */
  lemma DivShift(a: real, d: real)
    requires d > 0.0
    ensures ((a + d) / d).Floor == (a / d).Floor + 1
    ensures ((a - d) / d).Floor == (a / d).Floor - 1
  {
    var q := a / d;
    assert q * d == a;
    assert (q + 1.0) * d == a + d;
    assert (q - 1.0) * d == a - d;
    DivOf(a + d, d, q + 1.0);
    DivOf(a - d, d, q - 1.0);
  }

  /** k copies of d added up. */
  function Times(k: nat, d: real): (r: real)
    ensures d >= 0.0 ==> r >= 0.0
  {
    if k == 0 then 0.0 else Times(k - 1, d) + d
  }

  lemma {:induction false} TimesIsMul(k: nat, d: real)
    ensures Times(k, d) == k as real * d
  {
    if k > 0 {
      TimesIsMul(k - 1, d);
      MulSucc(k - 1, d);
    }
  }

  /** Adding whole divisors to a remainder in [0, d) leaves `%` unchanged. */
  lemma {:induction false} PyModAbove(b: real, d: real, k: nat)
    requires d > 0.0 && 0.0 <= b < d
    ensures PyMod(b + Times(k, d), d) == b
  {
    if k > 0 {
      PyModAbove(b, d, k - 1);
      assert b + Times(k, d) - d == b + Times(k - 1, d);
    }
  }

  /** Subtracting whole divisors from a remainder in [0, d) leaves `%`
      unchanged. */
  lemma {:induction false} PyModBelow(b: real, d: real, k: nat)
    requires d > 0.0 && 0.0 <= b < d
    ensures PyMod(b - Times(k, d), d) == b
  {
    if k > 0 {
      PyModBelow(b, d, k - 1);
      assert b - Times(k, d) + d == b - Times(k - 1, d);
    }
  }

  /** When a lies in [j*d, (j+1)*d), `a % d` is a - j*d. */
  lemma PyModWhen(a: real, d: real, j: int)
    requires d > 0.0
    requires j as real * d <= a < (j + 1) as real * d
    ensures PyMod(a, d) == a - j as real * d
  {
    var b := a - j as real * d;
    MulSucc(j, d);
    assert 0.0 <= b < d;
    if j >= 0 {
      TimesIsMul(j, d);
      PyModAbove(b, d, j);
      assert b + Times(j, d) == a;
    } else {
      TimesIsMul(-j, d);
      MulNeg(j, d);
      PyModBelow(b, d, -j);
      assert b - Times(-j, d) == a;
    }
  }

  lemma MulNeg(j: int, d: real)
    ensures (-j) as real * d == -(j as real * d)
  {
  }

  /** The stepping definition agrees with Python's floor-based one for every
      real a and positive d. */
  lemma PyModIsFloorMod(a: real, d: real)
    requires d > 0.0
    ensures PyMod(a, d) == FloorMod(a, d)
  {
    var q := (a / d).Floor;
    assert q as real * d <= a < (q + 1) as real * d by {
      FloorScaled(a, d);
      MulSucc(q, d);
    }
    PyModWhen(a, d, q);
  }

  /** The floor of a/d brackets a between consecutive multiples of d. */
  lemma FloorScaled(a: real, d: real)
    requires d > 0.0
    ensures d * (a / d).Floor as real <= a < d * (a / d).Floor as real + d
  {
    var q := (a / d).Floor as real;
    assert q <= a / d < q + 1.0;
    assert d * (a / d) == a;
    MulMonotone(d, q, a / d);
    MulStrict(d, a / d, q + 1.0);
    assert a < d * (q + 1.0);
    assert d * (q + 1.0) == d * q + d;
  }

  lemma MulMonotone(d: real, x: real, y: real)
    requires d > 0.0 && x <= y
    ensures d * x <= d * y
  {
  }

  lemma MulStrict(d: real, x: real, y: real)
    requires d > 0.0 && x < y
    ensures d * x < d * y
  {
  }

  /** A non-negative value scaled by a factor in [0, 1] stays in [0, a]. */
  lemma ScaleDown(a: real, f: real)
    requires a >= 0.0 && 0.0 <= f <= 1.0
    ensures 0.0 <= a * f <= a
  {
    if a > 0.0 {
      MulMonotone(a, 0.0, f);
      MulMonotone(a, f, 1.0);
    }
  }

  /** Dividing by a positive d maps [lo*d, hi*d) onto [lo, hi). */
  lemma DivBounds(x: real, d: real, lo: real, hi: real)
    requires d > 0.0 && lo * d <= x < hi * d
    ensures lo <= x / d < hi
  {
    var q := x / d;
    assert q * d == x;
    if q < lo {
      MulStrict(d, q, lo);
      assert false;
    }
    if q >= hi {
      MulMonotone(d, hi, q);
      assert false;
    }
  }

  /** `%` is periodic in its left operand with the divisor as period. */
  lemma PyModShift(a: real, d: real)
    requires d > 0.0
    ensures PyMod(a + d, d) == PyMod(a, d)
  {
    var q := (a / d).Floor;
    FloorScaled(a, d);
    MulSucc(q, d);
    MulSucc(q + 1, d);
    assert q as real * d <= a < (q + 1) as real * d;
    PyModWhen(a, d, q);
    PyModWhen(a + d, d, q + 1);
  }

  lemma MulSucc(q: int, d: real)
    ensures (q + 1) as real * d == q as real * d + d
  {
  }

  /** Python's `int(x)` on a float truncates toward zero. */
  function Trunc(x: real): (r: int)
    ensures Abs(r as real) <= Abs(x) < Abs(r as real) + 1.0
    ensures x >= 0.0 ==> r >= 0
    ensures x <= 0.0 ==> r <= 0
  {
    if x >= 0.0 then x.Floor else -((-x).Floor)
  }

  /** `math.floor` of a value in [0, n) is an integer in 0..n-1. */
  lemma FloorBelow(x: real, n: int)
    requires 0.0 <= x < n as real
    ensures 0 <= x.Floor < n
  {
  }
}

=== FILE: sampler.dfy ===
/** The parameter sampler (`generateValues`): one set of randomised generation
    parameters derived from the canvas width. The calls to `random.random()`
    are replaced by an explicit sequence of draws, each in [0, 1), consumed in
    the order Python evaluates them. */
module Sampler {
  import opened Numeric

  /** The parameter dictionary, one field per key. */
  datatype Params = Params(
    segments: int,
    wl: real,
    layers: int,
    hueStart: real,
    hueIncrement: real,
    ampl: real,
    offset: real,
    offsetIncrement: real,
    sat: real,
    light: real,
    lightIncrement: real)

  /** The parameters together with the number of draws they consumed. */
  datatype Sample = Sample(params: Params, used: nat)

  /** A conditional expression draws its test first and then only the draws of
      the branch it takes, so at most 13 draws are ever needed. */
  const MaxDraws := 13

  ghost predicate ValidDraws(u: seq<real>)
  {
    |u| >= MaxDraws && forall i :: 0 <= i < |u| ==> 0.0 <= u[i] < 1.0
  }

  /** The ranges every sampled field lies in, for a positive width. */
  ghost predicate InRange(p: Params, width: real)
  {
    && (1 <= p.segments <= 9 || p.segments == 200)
    && width / 20.0 < p.wl <= width / 5.0
    && 3 <= p.layers <= 12
    && 0.0 <= p.hueStart < 360.0
    && -20.0 < p.hueIncrement <= 20.0
    && 0.1 * p.wl <= p.ampl < p.wl
    && 0.0 <= p.offset < width
    && width / 20.0 <= p.offsetIncrement < 3.0 * width / 20.0
    && 15.0 <= p.sat < 50.0
    && 15.0 <= p.light < 60.0
    && 2.0 <= Abs(p.lightIncrement) < 6.0
  }

  /** Line-segment count: a coin flip chooses a coarse 1..9 or a smooth 200. */
  function Segments(coin: real, v: real): (n: int)
    requires 0.0 <= v < 1.0
    ensures coin < 0.5 ==> 1 <= n <= 9
    ensures coin >= 0.5 ==> n == 200
  {
    FloorBelow(9.0 * v, 9);
    if coin < 0.5 then 1 + (9.0 * v).Floor else 200
  }

  /** Wavelength: width divided by a divisor in [5, 20). */
  function Wavelength(width: real, v: real): (wl: real)
    requires 0.0 <= v < 1.0
    ensures width > 0.0 ==> width / 20.0 < wl <= width / 5.0
    ensures width > 0.0 ==> wl > 0.0
  {
    WavelengthBounds(width, 5.0 + 15.0 * v);
    width / (5.0 + 15.0 * v)
  }

  /** Layer count: 3 plus a whole number below 10. */
  function LayerCount(v: real): (n: int)
    requires 0.0 <= v < 1.0
    ensures 3 <= n <= 12
  {
    FloorBelow(10.0 * v, 10);
    3 + (10.0 * v).Floor
  }

  /** Amplitude: between a tenth of the wavelength and the whole of it. */
  function Amplitude(wl: real, v: real): (a: real)
    requires 0.0 <= v < 1.0
    ensures wl > 0.0 ==> 0.1 * wl <= a < wl
  {
    var scale := 0.9 * wl;
    ScaledDraw(scale, v);
    0.1 * wl + scale * v
  }

  /** Horizontal phase offset: somewhere in [0, width). */
  function Offset(width: real, v: real): (o: real)
    requires 0.0 <= v < 1.0
    ensures width > 0.0 ==> 0.0 <= o < width
  {
    ScaledDraw(width, v);
    width * v
  }

  /** Offset increment: between a twentieth and three twentieths of the width. */
  function OffsetIncrement(width: real, v: real): (d: real)
    requires 0.0 <= v < 1.0
    ensures width > 0.0 ==> width / 20.0 <= d < 3.0 * width / 20.0
  {
    var scale := width / 10.0;
    ScaledDraw(scale, v);
    width / 20.0 + scale * v
  }

  /** Lightness increment: a magnitude in [2, 6) with a coin-flipped sign. */
  function LightIncrement(coin: real, v: real): (d: real)
    requires 0.0 <= v < 1.0
    ensures 2.0 <= Abs(d) < 6.0
    ensures d > 0.0 <==> coin < 0.5
  {
    if coin < 0.5 then 2.0 + 4.0 * v else -(2.0 + 4.0 * v)
  }

  /** `generateValues(width)`, with `random.random()` reading successive
      elements of `u`. The bounds of every field are those of `InRange`. */
  function GenerateValues(width: real, u: seq<real>): (r: Sample)
    requires ValidDraws(u)
    ensures r.used <= |u|
    ensures r.params.segments == 200 <==> u[0] >= 0.5
    ensures r.used == (if r.params.segments == 200 then 12 else 13)
    ensures var p := r.params;
      && (1 <= p.segments <= 9 || p.segments == 200)
      && 3 <= p.layers <= 12
      && 0.0 <= p.hueStart < 360.0
      && -20.0 < p.hueIncrement <= 20.0
      && 15.0 <= p.sat < 50.0
      && 15.0 <= p.light < 60.0
      && 2.0 <= Abs(p.lightIncrement) < 6.0
    ensures width > 0.0 ==> InRange(r.params, width)
  {
    var k := if u[0] < 0.5 then 2 else 1;
    var wl := Wavelength(width, u[k]);
    var hueStart := 360.0 * u[k + 2];
    var hueIncrement := 20.0 - 40.0 * u[k + 3];
    var sat := 15.0 + 35.0 * u[k + 7];
    var light := 15.0 + 45.0 * u[k + 8];
    assert 0.0 <= hueStart < 360.0 && -20.0 < hueIncrement <= 20.0;
    assert 15.0 <= sat < 50.0 && 15.0 <= light < 60.0;
    Sample(
      Params(
        segments := Segments(u[0], u[1]),
        wl := wl,
        layers := LayerCount(u[k + 1]),
        hueStart := hueStart,
        hueIncrement := hueIncrement,
        ampl := Amplitude(wl, u[k + 4]),
        offset := Offset(width, u[k + 5]),
        offsetIncrement := OffsetIncrement(width, u[k + 6]),
        sat := sat,
        light := light,
        lightIncrement := LightIncrement(u[k + 9], u[k + 10])),
      k + 11)
  }

  /** width / D for a divisor D in [5, 20) lies in (width/20, width/5]. */
  lemma WavelengthBounds(width: real, den: real)
    requires 5.0 <= den < 20.0
    ensures width > 0.0 ==> width / 20.0 < width / den <= width / 5.0
  {
    if width <= 0.0 { return; }
    var q := width / den;
    assert q * den == width;
    assert q > 0.0;
    MulStrict(q, den, 20.0);
    assert width < 20.0 * q;
    MulMonotone(q, 5.0, den);
    assert 5.0 * q <= width;
  }

  /** A positive scale times a draw in [0, 1) lies in [0, scale). */
  lemma ScaledDraw(scale: real, v: real)
    requires 0.0 <= v < 1.0
    ensures scale > 0.0 ==> 0.0 <= scale * v < scale
  {
    if scale <= 0.0 { return; }
    MulMonotone(scale, 0.0, v);
    MulStrict(scale, v, 1.0);
  }

  /** The draw that makes `Wavelength` produce a given wavelength. */
  lemma WavelengthInverse(width: real, wl: real)
    requires width > 0.0 && width / 20.0 < wl <= width / 5.0
    ensures var v := (width / wl - 5.0) / 15.0;
      0.0 <= v < 1.0 && Wavelength(width, v) == wl
  {
    var q := width / wl;
    assert wl > 0.0;
    assert q * wl == width;
    assert 5.0 * wl <= width < 20.0 * wl;
    DivBounds(width, wl, 5.0, 20.0);
    var v := (q - 5.0) / 15.0;
    assert 5.0 + 15.0 * v == q;
    assert width / q == wl;
  }

  /** The draw that makes `Amplitude` produce a given amplitude. */
  lemma AmplitudeInverse(wl: real, a: real)
    requires wl > 0.0 && 0.1 * wl <= a < wl
    ensures var v := (a - 0.1 * wl) / (0.9 * wl);
      0.0 <= v < 1.0 && Amplitude(wl, v) == a
  {
    var scale := 0.9 * wl;
    var v := (a - 0.1 * wl) / scale;
    DivBounds(a - 0.1 * wl, scale, 0.0, 1.0);
    assert scale * v == a - 0.1 * wl;
  }

  /** The draw that makes `Offset` produce a given offset. */
  lemma OffsetInverse(width: real, o: real)
    requires width > 0.0 && 0.0 <= o < width
    ensures var v := o / width;
      0.0 <= v < 1.0 && Offset(width, v) == o
  {
    var v := o / width;
    DivBounds(o, width, 0.0, 1.0);
    assert width * v == o;
  }

  /** The draw that makes `OffsetIncrement` produce a given increment. */
  lemma OffsetIncrementInverse(width: real, d: real)
    requires width > 0.0 && width / 20.0 <= d < 3.0 * width / 20.0
    ensures var v := (d - width / 20.0) / (width / 10.0);
      0.0 <= v < 1.0 && OffsetIncrement(width, v) == d
  {
    var scale := width / 10.0;
    var v := (d - width / 20.0) / scale;
    DivBounds(d - width / 20.0, scale, 0.0, 1.0);
    assert scale * v == d - width / 20.0;
  }

  /** One choice of draws that reproduces a given in-range parameter set. */
  function DrawsFor(p: Params, width: real): (u: seq<real>)
    requires width > 0.0 && InRange(p, width)
    ensures |u| == MaxDraws
  {
    var segDraws :=
      if p.segments == 200 then [0.5]
      else [0.0, (p.segments - 1) as real / 9.0];
    var lightDraws :=
      if p.lightIncrement > 0.0 then [0.0, (p.lightIncrement - 2.0) / 4.0]
      else [0.5, (-p.lightIncrement - 2.0) / 4.0];
    var tail := if p.segments == 200 then [0.0] else [];
    segDraws
    + [ (width / p.wl - 5.0) / 15.0,
        (p.layers - 3) as real / 10.0,
        p.hueStart / 360.0,
        (20.0 - p.hueIncrement) / 40.0,
        (p.ampl - 0.1 * p.wl) / (0.9 * p.wl),
        p.offset / width,
        (p.offsetIncrement - width / 20.0) / (width / 10.0),
        (p.sat - 15.0) / 35.0,
        (p.light - 15.0) / 45.0 ]
    + lightDraws + tail
  }

  /** The ranges of `InRange` are exact: every in-range parameter set is
      produced by `generateValues` for some valid draws. */
  lemma DrawsForRoundTrip(p: Params, width: real)
    requires width > 0.0 && InRange(p, width)
    ensures ValidDraws(DrawsFor(p, width))
    ensures GenerateValues(width, DrawsFor(p, width)).params == p
  {
    var u := DrawsFor(p, width);
    var k := if p.segments == 200 then 1 else 2;
    if p.segments != 200 {
      assert 9.0 * u[1] == (p.segments - 1) as real;
    }
    assert 10.0 * u[k + 1] == (p.layers - 3) as real;
    WavelengthInverse(width, p.wl);
    AmplitudeInverse(p.wl, p.ampl);
    OffsetInverse(width, p.offset);
    OffsetIncrementInverse(width, p.offsetIncrement);
    assert ValidDraws(u);
  }
}

=== FILE: wrappers.dfy ===
/** An optional value. For a directory entry, `None` means the entry carries
    no number: it lacks the base name, or `int()` raises ValueError on its
    middle part. */
module Wrappers {

  datatype Option<+T> = None | Some(value: T)
}
